=== FILE: README.md ===
# gitfs in Dafny

A model of `gitfs`, the adapter that serves one git tree as a read-only
Go `http.FileSystem`. The model covers the whole adapter:

- `Open(name)`: path normalisation, and dispatch to a file or a directory handle;
- the file handle `gitFile`: a byte cursor with `Read`, `Seek`, `Readdir` and `Stat`;
- the directory handle `gitTree`: an entry cursor with `Readdir`, `Read`, `Seek` and `Stat`;
- `gitFileInfo`: the `os.FileInfo` projection (`Name`, `Size`, `Mode`, `IsDir`).

The libgit2 object store is replaced by plain data. The store is a finite map
from object id to `Blob(bytes) | Tree(entries) | Commit`. A commit is what a
submodule entry names, and the adapter reads nothing out of it. A tree entry
has a name, an id, an object type and a filemode. An id missing from the map
is a lookup failure. The root tree's `EntryByPath` is a finite map from paths
to entries, and a path outside it is not found.

`Open` returns `Opened(handle)`, `Failed(error)`, or `AssertionPanic` when one
of its type assertions (`obj.(*git.Tree)`, `obj.(*git.Blob)`) fails.
`FileSystem.Consistent` states what git guarantees about a tree: an entry's
id, if the store has it, names an object of the entry's declared type. On
such a tree only a submodule entry whose commit is in the store panics
(`FileSystem.ConsistentOpenPanicsOnlyOnSubmodules`).

Each handle method other than `Stat` is a pure function that returns an
`Outcome`. `Open` returns `FileSystem.Opened`, and the `FileInfo` methods
return plain values. An outcome is
either `Returned(value, err, handle)` or `Panicked`. `handle` is the receiver
after the call, and `err == None` stands for a nil error. `Read` slices
`data[v.offset:]`, which panics in Go when the cursor is negative or past the
end, so `FileHandle.Read` returns `Panicked` in exactly those cases.
`Seek`'s `int64` additions wrap around, and the model writes this out with
`GoTypes.Wrap64`.

Files, one module each:
`go_types.dfy` (`GoTypes`), `git_store.dfy` (`GitStore`),
`file_info.dfy` (`FileInfos`), `git_file.dfy` (`FileHandle`),
`git_tree.dfy` (`TreeHandle`), `git_file_system.dfy` (`FileSystem`),
`scenario.dfy` (`Scenario`, the repository the test seeds: one entry
`README` holding `"foo\n"`).

Three behaviours of the code worth knowing:

- Only the literal `"/"` is the root. `""` and `"//"` go to the path lookup
  with the empty path (`FileSystem.EmptyNameIsNotRoot`).
- Seeking past the end, or before the start, is accepted. The next `Read`
  then panics instead of reporting EOF (`FileHandle.SeekOutOfRangeThenReadPanics`).
- A zero-length buffer reads as `(0, io.EOF)` even with data ahead
  (`FileHandle.NothingCopiedIsEof`).

## Model

| member | source | states |
|---|---|---|
| GoTypes.Wrap64 | gitfs.go:60-62 | int64 addition: the exact sum when it fits, else the sum shifted by one turn of 2^64 |
| GoTypes.BuiltinCopy | gitfs.go:40 | the built-in `copy` copies min(len(dst), len(src)) elements into the front of dst and leaves the rest of dst alone |
| GitStore.Lookup | gitfs.go:187-190 | a lookup succeeds exactly for ids in the store and returns that object; otherwise it fails with the store's error |
| FileInfos.NameIsEntryName | gitfs.go:77-79 | the name is the entry's own name, whatever object the entry resolved to |
| FileInfos.Size | gitfs.go:81-88 | the size is never negative, and only a blob can have a positive size |
| FileInfos.SizeIgnoresEntryKind | gitfs.go:81-88 | the size is the blob's length for a blob object, 0 for anything else, whatever the entry's type or filemode |
| FileInfos.Mode | gitfs.go:90-101 | the mode is either 0 or the directory bit, and it is the directory bit iff the filemode is the tree filemode |
| FileInfos.IsDir | gitfs.go:107-109 | IsDir holds iff the entry's filemode is the tree filemode |
| FileInfos.IsDirAgreesWithMode | gitfs.go:90-109 | IsDir agrees with Mode, and neither depends on the resolved object |
| FileHandle.Read | gitfs.go:37-47 | panics iff the cursor is outside 0..size; otherwise copies n = min(len(out), size - offset) bytes equal to content[offset..offset+n] and leaves the rest of out alone; n = 0 gives (0, EOF) with the cursor unchanged, n > 0 gives a nil error and moves the cursor by exactly n |
| FileHandle.Seek | gitfs.go:54-68 | whence 0, 1, 2 set the cursor to off, cur+off, size+off in int64 arithmetic with no clamping, and return it; any other whence returns (0, invalid whence) and changes nothing |
| FileHandle.Readdir | gitfs.go:50-52 | always fails with not-a-directory and leaves the handle unchanged |
| FileHandle.Stat | gitfs.go:70-75 | names the entry, reports the blob's length as size, and is a directory iff the filemode is the tree filemode |
| FileHandle.ReadToEnd | gitfs.go:37-47 | reading until EOF from an in-range cursor yields exactly the rest of the blob and leaves the cursor at size |
| FileHandle.ReadEach | gitfs.go:37-47 | any run of reads from an in-range cursor keeps the entry and blob, leaves the cursor in range and not behind where it started, and moves it by exactly the number of bytes collected |
| FileHandle.ReadEachIsContiguous | gitfs.go:37-47 | the bytes a run of reads collects are exactly the blob from the starting cursor to the final one: nothing skipped, nothing repeated |
| FileHandle.ReadEachFillsBuffers | gitfs.go:37-47 | a run of reads collects as many bytes as its buffers hold, or everything left in the blob if that is less |
| FileHandle.NothingCopiedIsEof | gitfs.go:40-43 | at the end of the blob, or with an empty buffer, Read returns (0, EOF) and leaves the handle unchanged |
| FileHandle.RewindThenReadAll | gitfs.go:37-58 | after Seek(0, 0) from any cursor, reading to EOF yields the whole blob and ends at size |
| FileHandle.RewindThenReadIsIdempotent | gitfs.go:37-58 | after Seek(0, 0), Read gives the same result whatever the earlier cursor was |
| FileHandle.SeekEndReportsSize | gitfs.go:61-62 | Seek(0, 2) succeeds and returns the blob's size |
| FileHandle.SeekCurrentReportsCursor | gitfs.go:59-60 | Seek(0, 1) returns the cursor and changes nothing |
| FileHandle.SeekOutOfRangeThenReadPanics | gitfs.go:37-58 | a seek to before the start or past the end succeeds, and the next Read panics |
| FileHandle.SeekCurrentComposes | gitfs.go:59-60 | two relative seeks add up when no int64 overflow occurs |
| TreeHandle.Collect | gitfs.go:135-146 | the loop succeeds iff every entry from the cursor on resolves, and then returns their infos in order with the index at the end; otherwise it stops at the first unresolvable entry with the store's error |
| TreeHandle.Readdir | gitfs.go:132-149 | ignores its count argument, lists the infos of the entries from idx to the last in order, and sets idx to the entry count; on a failed lookup returns the error with idx at the failing entry; the cursor never decreases |
| TreeHandle.Read | gitfs.go:128-130 | always (0, EOF), handle unchanged |
| TreeHandle.Seek | gitfs.go:151-153 | always fails, handle unchanged |
| TreeHandle.Stat | gitfs.go:155-160 | names the tree's entry, reports size 0, and is a directory iff the filemode is the tree filemode |
| TreeHandle.ReaddirIgnoresCount | gitfs.go:132-149 | the count argument has no effect |
| TreeHandle.ReaddirTwiceIsEmpty | gitfs.go:133-135 | after a successful listing, a second Readdir returns an empty list and changes nothing |
| TreeHandle.ReaddirFailureRepeats | gitfs.go:135-140 | after a failed listing, calling again fails again at the same entry with the cursor unmoved |
| TreeHandle.FullListingNamesEntries | gitfs.go:132-149 | from index 0 over a resolvable tree, Readdir lists every entry exactly once, in order, under its own name |
| FileSystem.RootEntry | gitfs.go:170-176 | the root's made-up entry has an empty name, the tree type and filemode, and the root's id |
| FileSystem.EntryByPath | gitfs.go:182-184 | the path lookup succeeds iff the path is known, and otherwise fails with not found |
| FileSystem.StripLeadingSlashes | gitfs.go:178-181 | the result is a suffix of the name without a leading slash, and everything removed was a slash |
| FileSystem.OpenEntry | gitfs.go:187-202 | opening an entry fails with the store's error iff its id does not resolve, and panics iff the object is not a tree for a tree-typed entry or not a blob for any other; otherwise a tree-typed entry gives a directory handle at index 0 over the stored tree, any other a file handle at offset 0 over the stored blob |
| FileSystem.Open | gitfs.go:166-203 | "/" opens the root tree at index 0 (or fails with the store's error if the root does not resolve, or panics if it is not a tree); any other name is stripped of leading slashes and looked up: an unknown path gives not found, an unresolvable id gives the store's error, a wrong-kind object panics, and otherwise the handle's entry is the one found |
| FileSystem.ConsistentOpenPanicsOnlyOnSubmodules | gitfs.go:186-203 | on a tree whose entries agree with the store, Open panics exactly for a path naming a commit-typed entry whose commit the store holds |
| FileSystem.StripRemovesAnySlashRun | gitfs.go:178-181 | a name made of any number of slashes followed by a path strips to what the path strips to |
| FileSystem.StripIsIdempotent | gitfs.go:179-181 | stripping twice equals stripping once, and a leading slash does not change the result |
| FileSystem.OpenDependsOnlyOnStrippedName | gitfs.go:177-185 | two names other than "/" that strip to the same path open the same thing |
| FileSystem.OpenIgnoresLeadingSlashes | gitfs.go:177-185 | any name other than "/" opens what its stripped form opens |
| FileSystem.OpenIgnoresExtraSlash | gitfs.go:177-185 | "/" + p opens what p opens, for any non-empty p other than "/" |
| FileSystem.EmptyNameIsNotRoot | gitfs.go:170-185 | "" and "//" open the same thing and fail with not found unless the empty path is known, while "/" always opens |
| FileSystem.OpenedFileServesBlob | gitfs.go:166-203 | a path naming a resolvable blob-typed entry opens a file whose full read is the blob, and whose Stat gives the entry's name, the blob's length and the filemode's directory flag |
| FileSystem.RootListingIsRootTree | gitfs.go:166-196 | Open("/") then Readdir lists exactly the root tree's entries, in order, under their names |
| Scenario.SeededFs | gitfs_test.go:50-65 | the seeded repository is consistent: the root names a tree and README's id names a blob |
| Scenario.ServeReadme | gitfs_test.go:93-102 | "/README" opens a file handle at offset 0 over "foo\n" whose full read is "foo\n", with name README, size 4, not a directory |
| Scenario.SniffRewindCopy | gitfs_test.go:91-102 | a 512-byte read of README copies "foo\n" with no error, the read into the remaining 508 bytes is (0, EOF) with the cursor at 4, and Seek(0, 0) returns 0 and the original handle |
| Scenario.ListRoot | gitfs_test.go:50-65 | listing "/" gives exactly one entry, README, not a directory |
| Scenario.MissingIsNotFound | gitfs.go:182-184 | "/missing" fails with not found |
| Scenario.ListingAFileFails | gitfs.go:50-52 | Readdir on the README file fails with not-a-directory |
| Scenario.SubmoduleFs | gitfs.go:186-203 | a tree holding a submodule entry whose commit is in the store is still consistent: every entry's id names an object of its declared type |
| Scenario.SubmoduleIsListedButNotOpened | gitfs.go:81-101 | listing that tree gives the submodule with size 0, mode 0, not a directory, while opening "/lib" panics in the blob type assertion |

## Left out

- `Close` on both handles (gitfs.go:30-35, 121-126): it frees a native libgit2 object. The model has no resources, and a handle is simply not used again after closing. Calls after `Close` (a nil dereference in Go) are not modelled.
- `ModTime` (gitfs.go:103-105): it returns the wall-clock time.
- `Sys` (gitfs.go:111-113): it always returns nil.
- `NewFromTree`, `NewFromReference` and `NewFromReferenceName` (gitfs.go:205-239): they only bind the root tree, via libgit2 reference lookup and peeling, which are foreign calls. A `GitFileSystem` value is built directly instead.
- libgit2's `EntryByPath`, `Lookup`, `Owner` and `EntryByIndex` are foreign calls. Path lookup is a finite map, and the store is a finite map. A commit is held as an object with no contents, because the adapter reads nothing from it. Tag objects never appear as tree entries and are not in the store model.
- The `error` result of both `Stat` methods (gitfs.go:74, 159): it is always nil, so `FileHandle.Stat` and `TreeHandle.Stat` return only the info.
- Go's `http.File` interface dispatch is not modelled. The two handle kinds are the variants of `FileSystem.Handle`, and each operation is called on its module directly.
- Concurrency, and the HTTP server and listener of the test, are not modelled. `Scenario` replays only the reads the file server makes.


=== FILE: file_info.dfy ===
/**
 `gitFileInfo`: the `os.FileInfo` the adapter reports for a tree entry and
 the object its id resolved to. It is a value; every field is a projection.
 */
module FileInfos {
  import opened GoTypes
  import opened GitStore

  datatype GitFileInfo = GitFileInfo(entry: TreeEntry, obj: Object)

  /** `Name()`: the entry's own name, the empty string for the root. */
  function Name(info: GitFileInfo): string {
    info.entry.name
  }

  /** `Size()`: a blob's length; anything that is not a blob reports 0. */
  function Size(info: GitFileInfo): (r: int64)
    ensures r >= 0
    ensures r > 0 ==> info.obj.Blob?
  {
    match info.obj
    case Blob(data) => |data| as int64
    case Tree(_) => 0
    case Commit => 0
  }

  /**
   `Mode()`: decided by the entry's filemode alone, never by the object.
   A tree filemode gives the directory bit; a blob filemode, and every
   other filemode (executable, link, submodule), gives the zero mode.
   */
  function Mode(info: GitFileInfo): (m: FileMode)
    ensures m == 0 || m == ModeDir
    ensures m == ModeDir <==> info.entry.filemode == FilemodeTree
  {
    if info.entry.filemode == FilemodeBlob then 0
    else if info.entry.filemode == FilemodeTree then ModeDir
    else 0
  }

  /** `IsDir()`: the directory bit of `Mode()`, so exactly the entries with a tree filemode. */
  predicate IsDir(info: GitFileInfo)
    ensures IsDir(info) <==> info.entry.filemode == FilemodeTree
  {
    ModeIsDir(Mode(info))
  }

  /** IsDir and Mode never disagree, and neither looks at the object. */
  lemma IsDirAgreesWithMode(info: GitFileInfo, obj: Object)
    ensures IsDir(info) <==> Mode(info) == ModeDir
    ensures IsDir(info.(obj := obj)) == IsDir(info)
    ensures Mode(info.(obj := obj)) == Mode(info)
  {
  }

  /** The name is the entry's own, whatever object the entry resolved to. */
  lemma NameIsEntryName(info: GitFileInfo, obj: Object)
    ensures Name(info) == info.entry.name
    ensures Name(info.(obj := obj)) == Name(info)
  {
  }

  /** Size never looks at the filemode or the declared type. */
  lemma SizeIgnoresEntryKind(info: GitFileInfo, typ: ObjectType, mode: Filemode)
    ensures Size(info.(entry := info.entry.(typ := typ, filemode := mode))) == Size(info)
    ensures Size(info) as int == (if info.obj.Blob? then |info.obj.contents| else 0)
  {
  }
}

=== FILE: git_file.dfy ===
/**
 `gitFile`: the handle `Open` returns for anything that is not a tree. It
 is a byte cursor over the blob's immutable contents. Nothing keeps the
 cursor in range: `Seek` stores whatever offset it computes, and `Read`
 slices the contents at the cursor, which panics in Go when the cursor is
 negative or past the end.
 */
module FileHandle {
  import opened GoTypes
  import opened GitStore
  import opened FileInfos

  datatype GitFile = GitFile(entry: TreeEntry, blob: ByteSlice, offset: int64)

  /** The cursor lies where `data[offset:]` is a legal Go slice expression. */
  predicate InRange(f: GitFile) {
    0 <= f.offset as int <= |f.blob|
  }

  /**
   `Read(out)`: copies the contents from the cursor on into `out`. When it
   copies nothing (the cursor sits at the end, or `out` is empty) it
   returns `(0, io.EOF)` and the cursor stays; otherwise it returns the
   count with a nil error and moves the cursor past the copied bytes.
   */
  function Read(f: GitFile, out: ByteSlice): (r: Outcome<GitFile, Filled>)
    ensures r.Panicked? <==> !InRange(f)
    ensures r.Returned? ==>
              var n := Min(|out|, |f.blob| - f.offset as int);
              && r.value.n == n
              && |r.value.buf| == |out|
              && r.value.buf[..n] == f.blob[f.offset..f.offset as int + n]
              && r.value.buf[n..] == out[n..]
              && r.handle.entry == f.entry
              && r.handle.blob == f.blob
              && InRange(r.handle)
    ensures r.Returned? && r.value.n == 0 ==> r.err == Some(EOF) && r.handle == f
    ensures r.Returned? && r.value.n > 0 ==> r.err == None && r.handle.offset as int == f.offset as int + r.value.n
  {
    if !InRange(f) then Panicked
    else
      var Copied(n, buf) := BuiltinCopy(out, f.blob[f.offset..]);
      if n == 0 then Returned(Filled(0, out), Some(EOF), f)
      else Returned(Filled(n, buf), None, f.(offset := f.offset + n as int64))
  }

  /**
   `Seek(offset, whence)`: whence 0, 1 and 2 set the cursor to `offset`,
   to the cursor plus `offset`, and to the size plus `offset`, in int64
   arithmetic and without any clamping, and return the new cursor. Any
   other whence is an error that leaves the cursor where it was.
   */
  function Seek(f: GitFile, offset: int64, whence: int): (r: Outcome<GitFile, int64>)
    ensures r.Returned?
    ensures r.handle.entry == f.entry && r.handle.blob == f.blob
    ensures r.err == None <==> whence in {0, 1, 2}
    ensures r.err == None ==> r.value == r.handle.offset
    ensures whence == 0 ==> r.handle.offset == offset
    ensures whence == 1 ==> r.handle.offset == Wrap64(f.offset as int + offset as int)
    ensures whence == 2 ==> r.handle.offset == Wrap64(|f.blob| + offset as int)
    ensures r.err != None ==> r == Returned(0, Some(InvalidWhence), f)
  {
    if whence == 0 then
      Returned(offset, None, f.(offset := offset))
    else if whence == 1 then
      var o := Wrap64(f.offset as int + offset as int);
      Returned(o, None, f.(offset := o))
    else if whence == 2 then
      var o := Wrap64(|f.blob| + offset as int);
      Returned(o, None, f.(offset := o))
    else
      Returned(0, Some(InvalidWhence), f)
  }

  /** `Readdir(count)`: a blob has no children, so it always fails and changes nothing. */
  function Readdir(f: GitFile, count: int): (r: Outcome<GitFile, seq<GitFileInfo>>)
    ensures r == Returned([], Some(NotADirectory), f)
  {
    Returned([], Some(NotADirectory), f)
  }

  /** `Stat()`: the entry together with the blob, whatever the cursor. */
  function Stat(f: GitFile): (info: GitFileInfo)
    ensures Name(info) == f.entry.name
    ensures Size(info) as int == |f.blob|
    ensures IsDir(info) <==> f.entry.filemode == FilemodeTree
  {
    GitFileInfo(f.entry, Blob(f.blob))
  }

  /**
   A reader that calls `Read` with the buffer `out` until it reports EOF
   and keeps what each call copied: a reader that drains the file with one
   fixed buffer. From an in-range cursor it collects exactly the rest of
   the blob and leaves the cursor at the end.
   */
  function ReadToEnd(f: GitFile, out: ByteSlice): (r: (seq<byte>, GitFile))
    requires |out| > 0
    requires InRange(f)
    ensures r.0 == f.blob[f.offset..]
    ensures r.1 == f.(offset := |f.blob| as int64)
    decreases |f.blob| - f.offset as int
  {
    match Read(f, out)
    case Panicked => assert false; ([], f)
    case Returned(v, err, g) =>
      if err.Some? then ([], f)
      else
        var (from, to) := (f.offset as int, g.offset as int);
        assert v.buf[..v.n] == f.blob[from..to];
        assert f.blob[from..] == f.blob[from..to] + f.blob[to..];
        var (rest, h) := ReadToEnd(g, out);
        (v.buf[..v.n] + rest, h)
  }

  /**
   Zero bytes copied means EOF, for both reasons: the cursor at the end,
   and an empty buffer with data still ahead. The cursor does not move.
   */
  lemma NothingCopiedIsEof(f: GitFile, out: ByteSlice)
    requires InRange(f)
    requires f.offset as int == |f.blob| || |out| == 0
    ensures Read(f, out) == Returned(Filled(0, out), Some(EOF), f)
  {
  }

  /**
   Rewinding makes the cursor's history irrelevant: after `Seek(0, 0)`,
   reading to the end yields the whole blob, from any starting cursor,
   including one a previous seek left out of range.
   */
  lemma RewindThenReadAll(f: GitFile, out: ByteSlice)
    requires |out| > 0
    ensures var g := Seek(f, 0, 0).handle;
            && InRange(g)
            && ReadToEnd(g, out).0 == f.blob
            && ReadToEnd(g, out).1.offset as int == |f.blob|
  {
  }

  /** A rewind followed by a read gives the same answer from any two cursors over the same blob. */
  lemma RewindThenReadIsIdempotent(f: GitFile, offset: int64, out: ByteSlice)
    ensures Read(Seek(f, 0, 0).handle, out) == Read(Seek(f.(offset := offset), 0, 0).handle, out)
  {
  }

  /** `Seek(0, 2)` reports the blob's size, the way a file server measures content. */
  lemma SeekEndReportsSize(f: GitFile)
    ensures Seek(f, 0, 2).value as int == |f.blob|
    ensures Seek(f, 0, 2).err == None
  {
  }

  /** `Seek(0, 1)` reports the cursor and moves nothing. */
  lemma SeekCurrentReportsCursor(f: GitFile)
    ensures Seek(f, 0, 1) == Returned(f.offset, None, f)
  {
  }

  /**
   `Seek` accepts any target, and a target past the end or before the
   start makes the next `Read` panic rather than report EOF: nothing
   clamps the cursor on the way.
   */
  lemma SeekOutOfRangeThenReadPanics(f: GitFile, offset: int64, out: ByteSlice)
    requires offset < 0 || offset as int > |f.blob|
    ensures Seek(f, offset, 0).err == None
    ensures Read(Seek(f, offset, 0).handle, out) == Panicked
  {
  }

  /** Seeking relative to the cursor composes by addition when int64 does not overflow. */
  lemma SeekCurrentComposes(f: GitFile, a: int64, b: int64)
    requires MIN_INT64 <= f.offset as int + a as int <= MAX_INT64
    requires MIN_INT64 <= f.offset as int + a as int + b as int <= MAX_INT64
    ensures Seek(Seek(f, a, 1).handle, b, 1).handle.offset as int == f.offset as int + a as int + b as int
  {
  }

  function SumOfLengths(bufs: seq<ByteSlice>): nat {
    if bufs == [] then 0 else |bufs[0]| + SumOfLengths(bufs[1..])
  }

  /**
   A caller's sequence of `Read` calls, one per buffer in `bufs`, keeping
   what each call copied; a call at EOF copies nothing and goes on.
   */
  function ReadEach(f: GitFile, bufs: seq<ByteSlice>): (r: (seq<byte>, GitFile))
    requires InRange(f)
    ensures r.1 == f.(offset := r.1.offset)
    ensures InRange(r.1) && f.offset <= r.1.offset
    ensures r.1.offset as int == f.offset as int + |r.0|
    decreases |bufs|
  {
    if bufs == [] then ([], f)
    else match Read(f, bufs[0])
      case Panicked => assert false; ([], f)
      case Returned(v, _, g) =>
        var (rest, h) := ReadEach(g, bufs[1..]);
        (v.buf[..v.n] + rest, h)
  }

  /**
   Reads neither skip nor repeat bytes: whatever the buffer sizes, a run
   of reads from an in-range cursor yields the blob from the cursor up to
   where it leaves the cursor, which is still in range.
   */
  lemma {:induction false} ReadEachIsContiguous(f: GitFile, bufs: seq<ByteSlice>)
    requires InRange(f)
    ensures f.offset <= ReadEach(f, bufs).1.offset && ReadEach(f, bufs).1.offset as int <= |f.blob|
    ensures ReadEach(f, bufs).0 == f.blob[f.offset..ReadEach(f, bufs).1.offset]
    decreases |bufs|
  {
    if bufs != [] {
      var r := Read(f, bufs[0]);
      var g := r.handle;
      ReadEachIsContiguous(g, bufs[1..]);
      var (rest, h) := ReadEach(g, bufs[1..]);
      assert ReadEach(f, bufs) == (r.value.buf[..r.value.n] + rest, h);
      var (from, mid, to) := (f.offset as int, g.offset as int, h.offset as int);
      assert r.value.buf[..r.value.n] == f.blob[from..mid];
      assert f.blob[from..to] == f.blob[from..mid] + f.blob[mid..to];
    }
  }

  /**
   Reads stop short only at the end of the blob: a run of reads collects
   as many bytes as its buffers hold, or everything left if that is less.
   */
  lemma {:induction false} ReadEachFillsBuffers(f: GitFile, bufs: seq<ByteSlice>)
    requires InRange(f)
    ensures |ReadEach(f, bufs).0| == Min(SumOfLengths(bufs), |f.blob| - f.offset as int)
    decreases |bufs|
  {
    if bufs != [] {
      var r := Read(f, bufs[0]);
      var g := r.handle;
      ReadEachFillsBuffers(g, bufs[1..]);
      assert |ReadEach(f, bufs).0| == r.value.n + |ReadEach(g, bufs[1..]).0|;
      assert g.offset as int == f.offset as int + r.value.n;
      assert SumOfLengths(bufs) == |bufs[0]| + SumOfLengths(bufs[1..]);
    }
  }
}

=== FILE: git_file_system.dfy ===
/**
 `gitFileSystem`: the `http.FileSystem` bound to one root tree, with its
 single operation `Open`. The root tree's path lookup (libgit2's
 `EntryByPath`) is a finite partial map from slash-separated paths to the
 entries they name; a path outside it is not found.
 */
module FileSystem {
  import opened GoTypes
  import opened GitStore
  import opened FileInfos
  import opened FileHandle
  import opened TreeHandle

  datatype GitFileSystem = GitFileSystem(store: Store, root: Oid, paths: map<string, TreeEntry>)

  /** The two handles `Open` can produce, both behind Go's `http.File` interface. */
  datatype Handle = File(file: GitFile) | Dir(dir: GitTree)

  function EntryOf(h: Handle): TreeEntry {
    match h
    case File(f) => f.entry
    case Dir(d) => d.entry
  }

  /**
   What git guarantees about a tree: the root id names a tree, and every
   entry the path lookup yields names, if anything, an object of the type
   it declares.
   */
  predicate Consistent(fs: GitFileSystem) {
    && fs.root in fs.store
    && fs.store[fs.root].Tree?
    && forall p | p in fs.paths :: Agrees(fs.store, fs.paths[p])
  }

  /**
   What one `Open` call does: it returns a handle, or it returns an error
   and no handle, or one of its type assertions `obj.(*git.Tree)` and
   `obj.(*git.Blob)` panics.
   */
  datatype Opened = Opened(handle: Handle) | Failed(error: Error) | AssertionPanic

  /** The entry `Open("/")` makes up for the root: no name, tree type and filemode, the root's id. */
  function RootEntry(fs: GitFileSystem): (e: TreeEntry)
    ensures e.name == "" && e.id == fs.root
    ensures e.typ == ObjectTree && e.filemode == FilemodeTree
  {
    TreeEntry("", fs.root, ObjectTree, FilemodeTree)
  }

  /** `Tree.EntryByPath(path)`. */
  function EntryByPath(fs: GitFileSystem, path: string): (r: Result<TreeEntry>)
    ensures r.Ok? <==> path in fs.paths
    ensures r.Ok? ==> r.value == fs.paths[path]
    ensures r.Err? ==> r.error == NotFound
  {
    if path in fs.paths then Ok(fs.paths[path]) else Err(NotFound)
  }

  /**
   The loop `for strings.HasPrefix(name, "/") { name = name[1:] }`: drops
   every leading slash and nothing else, so what is left is a suffix of the
   input that does not start with a slash.
   */
  function StripLeadingSlashes(name: string): (r: string)
    ensures |r| <= |name|
    ensures r == name[|name| - |r|..]
    ensures r == [] || r[0] != '/'
    ensures forall k :: 0 <= k < |name| - |r| ==> name[k] == '/'
  {
    if |name| > 0 && name[0] == '/' then StripLeadingSlashes(name[1..]) else name
  }

  /**
   Whether the type assertion `Open` applies to a looked-up object fails:
   a tree-typed entry must name a tree, any other entry a blob.
   */
  predicate AssertionFails(entry: TreeEntry, obj: Object) {
    if entry.typ == ObjectTree then !obj.Tree? else !obj.Blob?
  }

  /**
   The second half of `Open`: look the entry's id up and wrap the object
   in the handle the entry's declared type calls for, the cursor at 0. An
   object of the wrong kind makes the type assertion panic.
   */
  function OpenEntry(fs: GitFileSystem, entry: TreeEntry): (r: Opened)
    ensures r.Failed? <==> entry.id !in fs.store
    ensures r.Failed? ==> r.error == LookupFailed
    ensures r.AssertionPanic? <==> entry.id in fs.store && AssertionFails(entry, fs.store[entry.id])
    ensures r.Opened? ==> EntryOf(r.handle) == entry
    ensures r.Opened? ==> (r.handle.Dir? <==> entry.typ == ObjectTree)
    ensures r.Opened? && r.handle.Dir? ==>
              r.handle.dir.idx == 0 && entry.id in fs.store && fs.store[entry.id] == Tree(r.handle.dir.tree)
    ensures r.Opened? && r.handle.File? ==>
              r.handle.file.offset == 0 && entry.id in fs.store && fs.store[entry.id] == Blob(r.handle.file.blob)
  {
    match Lookup(fs.store, entry.id)
    case Err(e) => Failed(e)
    case Ok(obj) =>
      if entry.typ == ObjectTree then
        match obj
        case Tree(es) => Opened(Dir(GitTree(entry, es, 0)))
        case _ => AssertionPanic
      else
        match obj
        case Blob(data) => Opened(File(GitFile(entry, data, 0)))
        case _ => AssertionPanic
  }

  /**
   `Open(name)`: exactly `"/"` opens the root tree through a made-up entry;
   any other name loses its leading slashes and goes to the path lookup.
   The entry's id is then looked up; a tree-typed entry gives a directory
   handle at index 0, any other a file handle at offset 0. A failed lookup
   of either kind is returned unchanged, with no handle, and an object of
   the wrong kind panics.
   */
  function Open(fs: GitFileSystem, name: string): (r: Opened)
    ensures name == "/" ==> (r.Failed? <==> fs.root !in fs.store)
    ensures name == "/" && r.Failed? ==> r.error == LookupFailed
    ensures name == "/" && fs.root in fs.store ==>
              if fs.store[fs.root].Tree?
              then r == Opened(Dir(GitTree(RootEntry(fs), fs.store[fs.root].entries, 0)))
              else r == AssertionPanic
    ensures name != "/" && StripLeadingSlashes(name) !in fs.paths ==> r == Failed(NotFound)
    ensures name != "/" && StripLeadingSlashes(name) in fs.paths ==>
              var e := fs.paths[StripLeadingSlashes(name)];
              && (r.Failed? <==> e.id !in fs.store)
              && (r.Failed? ==> r.error == LookupFailed)
              && (r.AssertionPanic? <==> e.id in fs.store && AssertionFails(e, fs.store[e.id]))
              && (r.Opened? ==> EntryOf(r.handle) == e)
    ensures r.Opened? ==> (r.handle.Dir? <==> EntryOf(r.handle).typ == ObjectTree)
    ensures r.Opened? && r.handle.Dir? ==>
              && r.handle.dir.idx == 0
              && r.handle.dir.entry.id in fs.store
              && fs.store[r.handle.dir.entry.id] == Tree(r.handle.dir.tree)
    ensures r.Opened? && r.handle.File? ==>
              && r.handle.file.offset == 0
              && r.handle.file.entry.id in fs.store
              && fs.store[r.handle.file.entry.id] == Blob(r.handle.file.blob)
  {
    if name == "/" then OpenEntry(fs, RootEntry(fs))
    else
      match EntryByPath(fs, StripLeadingSlashes(name))
      case Err(e) => Failed(e)
      case Ok(entry) => OpenEntry(fs, entry)
  }

  /**
   On a tree git produced, the only entries whose type assertion fails are
   submodules: a commit-typed entry whose commit the store holds panics,
   every other entry opens or fails with an error.
   */
  lemma ConsistentOpenPanicsOnlyOnSubmodules(fs: GitFileSystem, name: string)
    requires Consistent(fs)
    ensures Open(fs, name).AssertionPanic? <==>
              && name != "/"
              && StripLeadingSlashes(name) in fs.paths
              && fs.paths[StripLeadingSlashes(name)].typ == ObjectCommit
              && fs.paths[StripLeadingSlashes(name)].id in fs.store
  {
    if name != "/" && StripLeadingSlashes(name) in fs.paths {
      var e := fs.paths[StripLeadingSlashes(name)];
      assert Agrees(fs.store, e);
      if e.id in fs.store {
        assert TypeOf(fs.store[e.id]) == e.typ;
      }
    }
  }

  /** Stripping is idempotent, and a leading slash never matters to it. */
  lemma StripIsIdempotent(name: string)
    ensures StripLeadingSlashes(StripLeadingSlashes(name)) == StripLeadingSlashes(name)
    ensures StripLeadingSlashes("/" + name) == StripLeadingSlashes(name)
  {
    assert ("/" + name)[1..] == name;
  }

  /** However many slashes lead a path, stripping removes exactly them. */
  lemma {:induction false} StripRemovesAnySlashRun(n: nat, path: string)
    ensures StripLeadingSlashes(seq(n, _ => '/') + path) == StripLeadingSlashes(path)
  {
    var s := seq(n, _ => '/') + path;
    if n == 0 {
      assert s == path;
    } else {
      assert s[0] == '/';
      assert s[1..] == seq(n - 1, _ => '/') + path;
      assert StripLeadingSlashes(s) == StripLeadingSlashes(s[1..]);
      StripRemovesAnySlashRun(n - 1, path);
    }
  }

  /** Apart from `"/"`, what a name opens depends only on its slash-free form. */
  lemma OpenDependsOnlyOnStrippedName(fs: GitFileSystem, a: string, b: string)
    requires a != "/" && b != "/"
    requires StripLeadingSlashes(a) == StripLeadingSlashes(b)
    ensures Open(fs, a) == Open(fs, b)
  {
  }

  /** Every name other than `"/"` opens what its slash-free form opens. */
  lemma OpenIgnoresLeadingSlashes(fs: GitFileSystem, name: string)
    requires name != "/"
    ensures Open(fs, name) == Open(fs, StripLeadingSlashes(name))
  {
    StripIsIdempotent(name);
    var s := StripLeadingSlashes(name);
    assert s != "/" by {
      assert s == [] || s[0] != '/';
      assert "/"[0] == '/';
    }
    OpenDependsOnlyOnStrippedName(fs, name, s);
  }

  /** Prefixing a slash changes nothing: `"/" + p` and `p` open the same thing for any non-empty `p`. */
  lemma OpenIgnoresExtraSlash(fs: GitFileSystem, name: string)
    requires name != "/" && name != ""
    ensures Open(fs, "/" + name) == Open(fs, name)
  {
    var t := "/" + name;
    assert t != "/" by {
      assert |t| > 1;
    }
    assert t[1..] == name;
    assert StripLeadingSlashes(t) == StripLeadingSlashes(name);
    OpenDependsOnlyOnStrippedName(fs, t, name);
  }

  /**
   Only the literal `"/"` is the root. `""` and `"//"` both go to the
   path lookup with the empty path, so they open the same thing as each
   other and, unless the lookup knows the empty path, fail with NotFound.
   */
  lemma EmptyNameIsNotRoot(fs: GitFileSystem)
    requires Consistent(fs)
    ensures Open(fs, "") == Open(fs, "//")
    ensures "" !in fs.paths ==> Open(fs, "") == Failed(NotFound)
    ensures Open(fs, "/").Opened?
  {
    assert "//" != "/" by {
      assert |"//"| == 2;
    }
    assert StripLeadingSlashes("//") == StripLeadingSlashes("/"[1..]);
    OpenDependsOnlyOnStrippedName(fs, "", "//");
  }

  /**
   A path the lookup maps to a blob entry opens as a file whose full read
   is that blob's contents, and whose `Stat` reports the entry's name, the
   blob's length and a directory flag matching the filemode.
   */
  lemma OpenedFileServesBlob(fs: GitFileSystem, name: string, out: ByteSlice)
    requires Consistent(fs)
    requires |out| > 0
    requires name != "/"
    requires StripLeadingSlashes(name) in fs.paths
    requires var e := fs.paths[StripLeadingSlashes(name)]; e.id in fs.store && e.typ == ObjectBlob
    ensures Open(fs, name).Opened? && Open(fs, name).handle.File?
    ensures var e := fs.paths[StripLeadingSlashes(name)];
            var f := Open(fs, name).handle.file;
            && fs.store[e.id].Blob?
            && ReadToEnd(f, out).0 == fs.store[e.id].contents
            && Name(FileHandle.Stat(f)) == e.name
            && Size(FileHandle.Stat(f)) as int == |fs.store[e.id].contents|
            && (IsDir(FileHandle.Stat(f)) <==> e.filemode == FilemodeTree)
  {
    var e := fs.paths[StripLeadingSlashes(name)];
    var f := Open(fs, name).handle.file;
    assert f.blob[0..] == f.blob;
  }

  /**
   Listing the root: `Open("/")` then `Readdir` yields one info per entry
   of the root tree, in order and with its name, when every entry resolves.
   */
  lemma RootListingIsRootTree(fs: GitFileSystem, count: int)
    requires Consistent(fs)
    requires ResolvableFrom(fs.store, fs.store[fs.root].entries, 0)
    ensures var d := Open(fs, "/").handle.dir;
            var r := TreeHandle.Readdir(fs.store, d, count);
            && r.err == None
            && Lists(fs.store, fs.store[fs.root].entries, r.value)
            && forall k :: 0 <= k < |r.value| ==> Name(r.value[k]) == fs.store[fs.root].entries[k].name
  {
    var es := fs.store[fs.root].entries;
    assert Rest(es, 0) == es;
  }
}

=== FILE: git_store.dfy ===
/**
 The git object store as the adapter sees it: immutable blobs, trees and
 commits addressed by id, tree entries carrying a name, an id, an object type and
 a filemode. The store itself is a finite map; an id missing from it is a
 lookup failure.
 */
module GitStore {
  import opened GoTypes

  /** An object id; its hash is opaque to the adapter. */
  datatype Oid = Oid(hash: nat)

  /** git2go's `ObjectType`. */
  datatype ObjectType = ObjectAny | ObjectBad | ObjectCommit | ObjectTree | ObjectBlob | ObjectTag

  /** git2go's `Filemode` is a plain `int`; these are its named values (octal 040000, 0100644, 0100755, 0120000, 0160000). */
  type Filemode = int

  const FilemodeTree: Filemode := 0x4000
  const FilemodeBlob: Filemode := 0x81a4
  const FilemodeBlobExecutable: Filemode := 0x81ed
  const FilemodeLink: Filemode := 0xa000
  const FilemodeCommit: Filemode := 0xe000

  datatype TreeEntry = TreeEntry(name: string, id: Oid, typ: ObjectType, filemode: Filemode)

  /**
   The objects a tree entry can name: a blob, a subtree, or, for a
   submodule entry, a commit. The adapter reads nothing out of a commit, so
   it carries no data here.
   */
  datatype Object = Blob(contents: ByteSlice) | Tree(entries: seq<TreeEntry>) | Commit

  type Store = map<Oid, Object>

  /** The runtime type of a stored object, what a Go type switch on it would see. */
  function TypeOf(obj: Object): ObjectType {
    match obj
    case Blob(_) => ObjectBlob
    case Tree(_) => ObjectTree
    case Commit => ObjectCommit
  }

  /** `Repository.Lookup(id)`: the stored object, or the store's failure. */
  function Lookup(store: Store, id: Oid): (r: Result<Object>)
    ensures r.Ok? <==> id in store
    ensures r.Ok? ==> r.value == store[id]
    ensures r.Err? ==> r.error == LookupFailed
  {
    if id in store then Ok(store[id]) else Err(LookupFailed)
  }

  /**
   An entry agrees with the store when the object its id names, if the
   store has it, has the type the entry declares. git guarantees this for
   every entry it hands out.
   */
  predicate Agrees(store: Store, e: TreeEntry) {
    e.id in store ==> TypeOf(store[e.id]) == e.typ
  }
}

=== FILE: git_tree.dfy ===
/**
 `gitTree`: the handle `Open` returns for a tree. Its only state is an
 entry index that `Readdir` advances; it has no bytes to read and no byte
 offset to seek to.
 */
module TreeHandle {
  import opened GoTypes
  import opened GitStore
  import opened FileInfos

  datatype GitTree = GitTree(entry: TreeEntry, tree: seq<TreeEntry>, idx: nat)

  /** Every entry from position `from` on names an object the store has. */
  predicate ResolvableFrom(store: Store, es: seq<TreeEntry>, from: nat) {
    forall k :: from <= k < |es| ==> es[k].id in store
  }

  /**
   `infos` is the listing the entries `es` describe: one info per entry, in
   order, each pairing the entry with the object its id names. This is the
   reference against which `Readdir` is judged.
   */
  predicate Lists(store: Store, es: seq<TreeEntry>, infos: seq<GitFileInfo>) {
    && |infos| == |es|
    && forall k :: 0 <= k < |es| ==> es[k].id in store && infos[k] == GitFileInfo(es[k], store[es[k].id])
  }

  /** The entries from position `i` on, or none when `i` is past the end. */
  function Rest(es: seq<TreeEntry>, i: nat): seq<TreeEntry> {
    if i <= |es| then es[i..] else []
  }

  /**
   The loop of `Readdir`: from index `i` to the end, look every entry up
   and collect its `FileInfo`. The first id the store cannot resolve stops
   the walk with the store's error, and the returned index is that entry's,
   so the entries before it are consumed and their infos lost.
   */
  function Collect(store: Store, es: seq<TreeEntry>, i: nat): (r: (Result<seq<GitFileInfo>>, nat))
    ensures r.1 >= i
    ensures r.0.Ok? <==> ResolvableFrom(store, es, i)
    ensures r.0.Ok? ==> r.1 == (if i < |es| then |es| else i) && Lists(store, Rest(es, i), r.0.value)
    ensures r.0.Err? ==>
              && i <= r.1 < |es|
              && !(es[r.1].id in store)
              && (forall k :: i <= k < r.1 ==> es[k].id in store)
              && r.0.error == LookupFailed
    decreases |es| - i
  {
    if i >= |es| then (Ok([]), i)
    else match Lookup(store, es[i].id)
      case Err(e) =>
        StepResolvable(store, es, i);
        (Err(e), i)
      case Ok(obj) =>
        var (rest, j) := Collect(store, es, i + 1);
        StepResolvable(store, es, i);
        match rest
        case Err(e) => (Err(e), j)
        case Ok(infos) =>
          StepLists(store, es, i, infos);
          (Ok([GitFileInfo(es[i], obj)] + infos), j)
  }

  /** Entries resolve from `i` on iff entry `i` does and those after it do. */
  lemma StepResolvable(store: Store, es: seq<TreeEntry>, i: nat)
    requires i < |es|
    ensures ResolvableFrom(store, es, i) <==> es[i].id in store && ResolvableFrom(store, es, i + 1)
  {
  }

  /** Listing entry `i` in front of the listing of the rest lists everything from `i` on. */
  lemma StepLists(store: Store, es: seq<TreeEntry>, i: nat, infos: seq<GitFileInfo>)
    requires i < |es|
    requires es[i].id in store
    requires Lists(store, Rest(es, i + 1), infos)
    ensures Lists(store, Rest(es, i), [GitFileInfo(es[i], store[es[i].id])] + infos)
  {
    var (all, tail) := (Rest(es, i), Rest(es, i + 1));
    var out := [GitFileInfo(es[i], store[es[i].id])] + infos;
    assert all == [es[i]] + tail;
    forall k | 0 <= k < |all|
      ensures all[k].id in store && out[k] == GitFileInfo(all[k], store[all[k].id])
    {
      if k > 0 {
        assert all[k] == tail[k - 1] && out[k] == infos[k - 1];
      }
    }
  }

  /**
   `Readdir(count)`: ignores `count` and lists every entry from the cursor
   on, in tree order, leaving the cursor past the last one. If an id does
   not resolve it returns the store's error and no list, with the cursor
   on the entry that failed. The cursor never moves back.
   Every clause after the first repeats `r.Returned? ==>` so that it reads,
   and is well-formed, on its own.
   */
  function Readdir(store: Store, d: GitTree, count: int): (r: Outcome<GitTree, seq<GitFileInfo>>)
    ensures r.Returned?
    ensures r.Returned? ==> r.handle.entry == d.entry && r.handle.tree == d.tree && r.handle.idx >= d.idx
    ensures r.Returned? ==> (r.err == None <==> ResolvableFrom(store, d.tree, d.idx))
    ensures r.Returned? && r.err == None ==>
              && Lists(store, Rest(d.tree, d.idx), r.value)
              && r.handle.idx == (if d.idx < |d.tree| then |d.tree| else d.idx)
    ensures r.Returned? && r.err != None ==>
              && r.err == Some(LookupFailed)
              && r.value == []
              && d.idx <= r.handle.idx < |d.tree|
              && !(d.tree[r.handle.idx].id in store)
              && (forall k :: d.idx <= k < r.handle.idx ==> d.tree[k].id in store)
  {
    var (res, i) := Collect(store, d.tree, d.idx);
    match res
    case Ok(infos) => Returned(infos, None, d.(idx := i))
    case Err(e) => Returned([], Some(e), d.(idx := i))
  }

  /** `Read(out)`: a tree has no bytes; always `(0, io.EOF)`, nothing changes. */
  function Read(d: GitTree, out: ByteSlice): (r: Outcome<GitTree, Filled>)
    ensures r == Returned(Filled(0, out), Some(EOF), d)
  {
    Returned(Filled(0, out), Some(EOF), d)
  }

  /** `Seek(offset, whence)`: never supported on a tree; always an error, nothing changes. */
  function Seek(d: GitTree, offset: int64, whence: int): (r: Outcome<GitTree, int64>)
    ensures r == Returned(0, Some(NotSeekable), d)
  {
    Returned(0, Some(NotSeekable), d)
  }

  /** `Stat()`: the tree's own entry with the tree object; its size is 0 whatever the cursor. */
  function Stat(d: GitTree): (info: GitFileInfo)
    ensures Name(info) == d.entry.name
    ensures Size(info) == 0
    ensures IsDir(info) <==> d.entry.filemode == FilemodeTree
  {
    GitFileInfo(d.entry, Tree(d.tree))
  }

  /** `count` plays no part in what `Readdir` does. */
  lemma ReaddirIgnoresCount(store: Store, d: GitTree, c1: int, c2: int)
    ensures Readdir(store, d, c1) == Readdir(store, d, c2)
  {
  }

  /** Once a listing succeeded, the handle is drained: the next call lists nothing and changes nothing. */
  lemma ReaddirTwiceIsEmpty(store: Store, d: GitTree, c1: int, c2: int)
    requires Readdir(store, d, c1).err == None
    ensures var d' := Readdir(store, d, c1).handle;
            Readdir(store, d', c2) == Returned([], None, d')
  {
    var d' := Readdir(store, d, c1).handle;
    assert d'.idx == (if d.idx < |d.tree| then |d.tree| else d.idx);
  }

  /**
   A failed listing is sticky: the cursor rests on the entry that failed,
   so calling again over the same store fails again at the same entry.
   */
  lemma ReaddirFailureRepeats(store: Store, d: GitTree, c1: int, c2: int)
    requires Readdir(store, d, c1).err != None
    ensures var d' := Readdir(store, d, c1).handle;
            Readdir(store, d', c2) == Returned([], Some(LookupFailed), d')
  {
    var d' := Readdir(store, d, c1).handle;
    var again := Readdir(store, d', c2);
    assert !ResolvableFrom(store, d.tree, d'.idx);
  }

  /**
   A fresh handle over a fully resolvable tree lists each entry once, in
   order: the names listed are the tree's names, no more and no fewer.
   */
  lemma {:induction false} FullListingNamesEntries(store: Store, d: GitTree, count: int)
    requires d.idx == 0
    requires ResolvableFrom(store, d.tree, 0)
    ensures var r := Readdir(store, d, count);
            && r.err == None
            && |r.value| == |d.tree|
            && forall k :: 0 <= k < |d.tree| ==> Name(r.value[k]) == d.tree[k].name
  {
    var r := Readdir(store, d, count);
    assert Rest(d.tree, 0) == d.tree;
  }
}

=== FILE: go_types.dfy ===
/**
 The pieces of Go the adapter leans on: fixed-width integers, byte slices,
 the built-in `copy`, `os.FileMode`, the errors the adapter hands back, and
 the shape of one method call on a handle.
 */
module GoTypes {

  const MIN_INT64: int := -0x8000_0000_0000_0000
  const MAX_INT64: int := 0x7fff_ffff_ffff_ffff
  const TWO_64: int := 0x1_0000_0000_0000_0000

  newtype int64 = x: int | -0x8000_0000_0000_0000 <= x < 0x8000_0000_0000_0000

  newtype byte = x: int | 0 <= x < 0x100

  /** A Go `[]byte`: its length is an `int`, so it never exceeds MAX_INT64. */
  type ByteSlice = s: seq<byte> | |s| <= 0x7fff_ffff_ffff_ffff witness []

  function Min(a: int, b: int): int {
    if a < b then a else b
  }

  /**
   Two's-complement wrap-around of Go's `int64` addition. The model only
   adds two `int64` values, so the true sum is at most one turn away.
   */
  function Wrap64(x: int): (r: int64)
    ensures MIN_INT64 <= x <= MAX_INT64 ==> r as int == x
    ensures MAX_INT64 < x <= MAX_INT64 + TWO_64 ==> r as int == x - TWO_64
    ensures MIN_INT64 - TWO_64 <= x < MIN_INT64 ==> r as int == x + TWO_64
  {
    ((x - MIN_INT64) % TWO_64 + MIN_INT64) as int64
  }

  /** What `copy(dst, src)` hands back: the count copied and `dst` afterwards. */
  datatype Copied = Copied(n: nat, dst: seq<byte>)

  /**
   Go's built-in `copy(dst, src)`: it copies as many elements as both
   slices hold, returns that count, and leaves the tail of `dst` alone.
   */
  function BuiltinCopy(dst: seq<byte>, src: seq<byte>): (r: Copied)
    ensures r.n <= |dst| && r.n <= |src|
    ensures r.n == |dst| || r.n == |src|
    ensures |r.dst| == |dst|
    ensures r.dst[..r.n] == src[..r.n]
    ensures r.dst[r.n..] == dst[r.n..]
  {
    var n := Min(|dst|, |src|);
    Copied(n, src[..n] + dst[n..])
  }

  /** `os.FileMode` is a `uint32` whose top bit is `os.ModeDir`. */
  type FileMode = bv32

  const ModeDir: FileMode := 0x8000_0000

  /** `os.FileMode.IsDir`: whether the directory bit is set. */
  predicate ModeIsDir(m: FileMode) {
    m & ModeDir != 0
  }

  /**
   The errors the adapter returns: `io.EOF`, the object store's failures
   (a path that is not in the tree, an id that does not resolve) passed on
   unchanged, and the three error strings of the adapter itself.
   */
  datatype Error =
    | EOF
    | NotFound        // EntryByPath found no entry
    | LookupFailed    // the object store could not resolve an id
    | NotADirectory   // "sorry, I'm not a directory"
    | InvalidWhence   // "invalid whence"
    | NotSeekable     // "what you wanna seek"

  datatype Option<+T> = None | Some(value: T)

  datatype Result<+T> = Ok(value: T) | Err(error: Error)

  /**
   One Go method call on a handle: either it returns (its value, its
   `error` result, `None` standing for `nil`, and the receiver's state
   afterwards) or it panics.
   */
  datatype Outcome<+H, +T> =
    | Returned(value: T, err: Option<Error>, handle: H)
    | Panicked

  /** What a `Read(out []byte)` call hands back: the count and the caller's buffer afterwards. */
  datatype Filled = Filled(n: nat, buf: ByteSlice)
}

=== FILE: scenario.dfy ===
/**
 The repository the test seeds: one blob `"foo\n"`, and a root tree with a
 single entry `README` naming it with the regular-file filemode. These
 lemmas follow what a file server does with it.
 */
module Scenario {
  import opened GoTypes
  import opened GitStore
  import opened FileInfos
  import opened FileHandle
  import opened TreeHandle
  import opened FileSystem

  /** The bytes of `"foo\n"`. */
  const Foo: ByteSlice := [0x66, 0x6f, 0x6f, 0x0a]

  const BlobId: Oid := Oid(1)
  const TreeId: Oid := Oid(2)

  const Readme: TreeEntry := TreeEntry("README", BlobId, ObjectBlob, FilemodeBlob)

  function SeededFs(): (fs: GitFileSystem)
    ensures Consistent(fs)
  {
    GitFileSystem(
      map[BlobId := Blob(Foo), TreeId := Tree([Readme])],
      TreeId,
      map["README" := Readme])
  }

  /** A 512-byte buffer, the size a file server sniffs content with. */
  function SniffBuffer(): (b: ByteSlice)
    ensures |b| == 512
  {
    seq(512, _ => 0 as byte)
  }

  /** The handle `Open("/README")` returns: the README entry over `"foo\n"`, cursor at 0. */
  const ReadmeFile: GitFile := GitFile(Readme, Foo, 0)

  /** The handle `Open("/")` returns: the made-up root entry over the root tree, index 0. */
  const RootDir: GitTree := GitTree(TreeEntry("", TreeId, ObjectTree, FilemodeTree), [Readme], 0)

  /**
   Serving `/README`: the name opens a file handle over the blob; reading
   it to the end yields `"foo\n"`; `Stat` says 4 bytes, not a directory.
   */
  lemma ServeReadme()
    ensures Open(SeededFs(), "/README") == Opened(File(ReadmeFile))
    ensures ReadToEnd(ReadmeFile, SniffBuffer()).0 == Foo
    ensures Size(FileHandle.Stat(ReadmeFile)) == 4
    ensures !IsDir(FileHandle.Stat(ReadmeFile))
    ensures Name(FileHandle.Stat(ReadmeFile)) == "README"
  {
    var fs := SeededFs();
    OpenIgnoresExtraSlash(fs, "README");
    OpenedFileServesBlob(fs, "README", SniffBuffer());
  }

  /**
   The file server's sequence on `/README`: sniff with a 512-byte read
   (4 bytes, no error); `io.ReadFull` then reads into the 508 bytes left
   of that buffer (0 bytes, EOF); and `Seek(0, 0)` rewinds to the handle
   `Open` gave, ready to copy the body.
   */
  lemma SniffRewindCopy()
    ensures var sniff := FileHandle.Read(ReadmeFile, SniffBuffer());
            var again := FileHandle.Read(ReadmeFile.(offset := 4), SniffBuffer()[4..]);
            var rewind := FileHandle.Seek(ReadmeFile.(offset := 4), 0, 0);
            && sniff.Returned? && sniff.value.n == 4 && sniff.value.buf[..4] == Foo
            && sniff.value.buf[4..] == SniffBuffer()[4..]
            && sniff.err == None && sniff.handle == ReadmeFile.(offset := 4)
            && again == Returned(Filled(0, SniffBuffer()[4..]), Some(EOF), ReadmeFile.(offset := 4))
            && rewind == Returned(0, None, ReadmeFile)
  {
  }

  /** Listing `/`: exactly one entry, named `README`, not a directory. */
  lemma ListRoot(count: int)
    ensures Open(SeededFs(), "/") == Opened(Dir(RootDir))
    ensures var r := TreeHandle.Readdir(SeededFs().store, RootDir, count);
            && r.err == None
            && |r.value| == 1
            && Name(r.value[0]) == "README"
            && !IsDir(r.value[0])
  {
    RootListingIsRootTree(SeededFs(), count);
  }

  /** `/missing` is not in the tree: NotFound, and no handle. */
  lemma MissingIsNotFound()
    ensures Open(SeededFs(), "/missing") == Failed(NotFound)
  {
    OpenIgnoresExtraSlash(SeededFs(), "missing");
  }

  /** Listing the file `/README` fails with NotADirectory. */
  lemma ListingAFileFails(count: int)
    ensures FileHandle.Readdir(ReadmeFile, count).err == Some(NotADirectory)
  {
  }

  /** A submodule entry: it names a commit, typed and moded as git writes submodules. */
  const SubmoduleId: Oid := Oid(3)
  const Lib: TreeEntry := TreeEntry("lib", SubmoduleId, ObjectCommit, FilemodeCommit)

  /** The seeded repository with a submodule `lib` beside `README`, its commit present in the store. */
  function SubmoduleFs(): (fs: GitFileSystem)
    ensures Consistent(fs)
  {
    GitFileSystem(
      map[BlobId := Blob(Foo), SubmoduleId := Commit, TreeId := Tree([Readme, Lib])],
      TreeId,
      map["README" := Readme, "lib" := Lib])
  }

  /**
   A submodule is listed like any entry, with size 0 and the zero mode,
   but opening it panics: its commit fails the blob type assertion.
   */
  lemma SubmoduleIsListedButNotOpened(count: int)
    ensures var fs := SubmoduleFs();
            var r := TreeHandle.Readdir(fs.store, GitTree(RootEntry(fs), [Readme, Lib], 0), count);
            && r.err == None
            && |r.value| == 2
            && Name(r.value[1]) == "lib"
            && Size(r.value[1]) == 0
            && Mode(r.value[1]) == 0
            && !IsDir(r.value[1])
    ensures Open(SubmoduleFs(), "/lib") == AssertionPanic
  {
    var fs := SubmoduleFs();
    assert ResolvableFrom(fs.store, [Readme, Lib], 0);
    OpenIgnoresExtraSlash(fs, "lib");
  }
}
